=== FILE: README.md ===
# Café booking API — a Dafny model

This project models the request logic of the café site's booking API: the
two Express routers `server/routes/auth.js` (signup and login) and
`server/routes/booking.js` (guest booking creation, listing a user's
bookings, and fetching, updating and cancelling one booking). Each route
handler is a pure function (one is a method) from an immutable store and a
request to a reply: an HTTP status, a JSON value or `error` message, and the
store after the request.

- `json_value.dfy` — the JSON values a handler reads from `req.body`, with
  JavaScript truthiness.
- `shapes.dfy` — the anchored regular expressions `^\d{4}-\d{2}-\d{2}$`,
  `^\d{2}:\d{2}$` and `^\d{10}$` as fixed-length patterns, and their
  position-by-position meaning.
- `parse_int.dfy` — JavaScript's `parseInt` as applied to the `:id` path
  parameter, and the fact that it reads back an id written as a decimal.
- `zod.dfy` — zod's type names and default messages; the schemas themselves
  sit with their routers.
- `records.dfy` — users keyed by unique email, bookings keyed by id, the
  auto-increment counters, the store's guarantees (`Valid`), the reply type,
  and the foreign primitives (bcrypt, JWT signing, zod's email test) as
  function values in a `Capabilities` record.
- `auth.dfy`, `bookings.dfy` — the two routers.
- `auth_laws.dfy`, `booking_laws.dfy` — properties that span several
  requests (read after write, cancel then fetch, signup then login, guest
  bookings sharing one user).

Some behaviours of the code are easy to miss:

- A failed guest booking can leave a change behind. The user row is created
  before the booking row, outside any transaction. If the booking insert then
  fails, the new user stays. `Fail` replies therefore carry a store, and
  `Bookings.CreateBooking` states that such a failure leaves the bookings
  untouched, not the whole store.
- Creation checks the party size only against 1..10. It does not check that
  the size is a whole number. The model hands a fractional size to the
  store, which refuses it (500). Update rejects it with zod's `.int()`
  message (400).
- Update validates the body before it looks the booking up. An invalid body
  gets 400 even for an id that does not exist.
- An update that sends `specialRequest: ""` stores `""`. Creation stores
  `null` for an empty note.
- The missing-field answer is one fixed message naming all six fields. It
  does not list only the fields that are missing.

## Model

| member | source | states |
|---|---|---|
| Shapes.FullMatchPointwise | server/routes/booking.js:10-11 | an anchored fixed-length pattern matches exactly the strings of its length whose characters match its atoms one by one |
| Shapes.DateShapeIff | server/routes/booking.js:29 | the date test accepts exactly ten characters with dashes at positions 4 and 7 and ASCII digits elsewhere |
| Shapes.TimeShapeIff | server/routes/booking.js:29 | the time test accepts exactly five characters with a colon at position 2 and ASCII digits elsewhere |
| Shapes.MobileShapeIff | server/routes/auth.js:13 | the mobile test accepts exactly ten ASCII digits |
| Shapes.DateShapeIsNotCalendar | server/routes/booking.js:29-33 | the date test is on shape only: "2024-13-40" passes, "2024-1-5" and a trailing space do not |
| JsParseInt.ParseIntOfDecimal | server/routes/booking.js:111 | `parseInt` of a decimal id followed by anything that does not continue the number (a non-digit; after `0`, also not `x` or `X`) yields that id |
| JsParseInt.ParseIntRoundTrip | server/routes/booking.js:110-112 | `parseInt(String(n)) == n` for every non-negative id |
| JsParseInt.ParseIntOfNegative | server/routes/booking.js:111 | `-` followed by a written id and then anything that does not continue the number reads as the id's negation ("-12abc" is -12) |
| JsParseInt.ParseIntSkipsWhitespace | server/routes/booking.js:111 | leading white space never changes the id read |
| JsParseInt.ParseIntNaN | server/routes/booking.js:111 | an id starting with anything but white space, a sign or a digit reads as NaN |
| JsParseInt.ParseIntExamples | server/routes/booking.js:111 | trailing garbage is ignored: "12abc" and "12x" are 12 |
| JsParseInt.ParseIntSignedExample | server/routes/booking.js:111 | leading white space and a sign are read: " -7" is -7 |
| Records.AddUser | server/routes/booking.js:48-55 | creating a user adds exactly that user under its email with a fresh id and keeps the store's guarantees |
| Records.AddBooking | server/routes/booking.js:59-67 | creating a booking adds exactly that booking under a fresh id and keeps the store's guarantees |
| Auth.SignupIssuesIff | server/routes/auth.js:10-15 | the signup schema reports no issue exactly when name has at least 2 characters, email passes the email test, mobile is ten digits and password has at least 6 characters, all strings |
| Auth.LoginIssuesIff | server/routes/auth.js:17-20 | the login schema reports no issue exactly when email passes the email test and password is a non-empty string |
| Auth.Signup | server/routes/auth.js:23-68 | the default booking status never changes; success exactly when every rule holds and the email is not stored; a broken rule gives 400 with the first broken rule's message in schema order; a taken email gives 400 "Email already exists"; failures leave the store unchanged; success adds exactly one user with a fresh id and the hash of the password, answers 201 "User created successfully" with a token for (id, email) and the public fields only |
| Auth.Login | server/routes/auth.js:71-110 | never changes the store; success exactly when the rules hold, the email is stored and bcrypt accepts the password; a broken rule gives 400 with its message; every other failure is 401 "Invalid credentials"; success answers 200 "Login successful" with a token for the stored user's id and email and its public fields |
| Bookings.CreateBooking | server/routes/booking.js:17-84 | the default booking status never changes; any falsy required field (a party size of 0 included) gives 400 before any other test; then the date, then the time shape (400); then the party range (400); 400 exactly for these failures, and every 400 leaves the store unchanged; a date or time that is not a string gives 500 "date.match is not a function" (resp. time); a 500 leaves the users unchanged or adds only the new guest user, and never touches the bookings; when the store refuses the party size or the note after the owner check, the reply is 500 and the guest user just stored stays; success exactly when all tests pass and the store takes the values; an existing user is reused untouched, otherwise exactly one user with the phone as mobile and the placeholder password is added; exactly one booking is added under a fresh id, owned by that user, with a falsy note stored as null; all other bookings unchanged |
| Bookings.Insert | server/routes/booking.js:93 | inserting into a newest-first list keeps it newest first; the result is one longer and holds exactly the old bookings and the new one |
| Bookings.InsertIsPermutation | server/routes/booking.js:93 | the inserted list is a permutation of the old list plus the new booking |
| Bookings.InsertKeepsIdsDistinct | server/routes/booking.js:91-94 | inserting a booking whose id is not yet listed keeps the listed ids distinct |
| Bookings.MyBookings | server/routes/booking.js:87-102 | lists exactly the caller's bookings, each once, ordered by creation time, newest first; the store is unchanged |
| Bookings.Authorize | server/routes/booking.js:110-121 | access is granted exactly to the owner of an existing booking; an absent id is 404 whoever asks, and only an existing booking of someone else is 403 |
| Bookings.GetBooking | server/routes/booking.js:105-127 | the owner gets the stored record (200); an id with no digits 500, an absent id 404, someone else's booking 403; the store is unchanged |
| Bookings.PatchIssuesIff | server/routes/booking.js:9-14 | the partial booking schema reports no issue exactly when each present field has the date shape, the time shape, a whole party size in 1..10, or a string note |
| Bookings.UpdateBooking | server/routes/booking.js:130-170 | an invalid body gives 400 with the first issue's message whatever the id (a bad date's, else a bad time's, else the party size's, else zod's type message for the note, e.g. "Expected string, received null"); then an id with no digits gives 500, an absent id 404, someone else's booking 403; success replaces date, time and party size only when supplied and the note whenever it is not undefined, keeps every other field and every other booking, and answers 200 with the new record |
| Bookings.CancelBooking | server/routes/booking.js:173-202 | an id with no digits gives 500, an absent id 404, someone else's booking 403, all without change; the owner's request removes exactly that booking |
| BookingLaws.CreateThenGet | server/routes/booking.js:59-79 | the id in a creation reply, written into the URL, fetches the stored booking for the user it was attached to |
| BookingLaws.GuestBookingsShareUser | server/routes/booking.js:42-67 | two guest bookings under one new email add one user and two bookings, both owned by that user; existing users are unchanged |
| BookingLaws.CancelThenGet | server/routes/booking.js:192-197 | after a cancellation, fetching the same id answers 404 |
| BookingLaws.CancelKeepsOthers | server/routes/booking.js:192-194 | a cancellation keeps the store's guarantees and every other booking |
| BookingLaws.UpdateThenGet | server/routes/booking.js:150-163 | after an update, fetching the booking returns the updated record |
| BookingLaws.UpdateIdempotent | server/routes/booking.js:150-157 | sending the same update a second time changes nothing further |
| BookingLaws.UpdateKeepsValid | server/routes/booking.js:150-158 | an update keeps the store's guarantees |
| BookingLaws.NoteOnlyUpdate | server/routes/booking.js:153-156 | a body holding only a note changes the note and nothing else |
| BookingLaws.StrangerRefused | server/routes/booking.js:119-120 | someone other than the owner gets 403 from fetch, update (with a valid body) and cancel, with no change |
| AuthLaws.SignupThenLogin | server/routes/auth.js:37-103 | logging in with the credentials just signed up with succeeds for the same user, with a token signed for the same id and email, given that bcrypt accepts a password against its own hash |
| AuthLaws.LoginFailuresAlike | server/routes/auth.js:80-89 | an unknown email and a wrong password get the identical 401 reply |
| AuthLaws.SignupsGetDistinctIds | server/routes/auth.js:28-47 | two signups with different emails get different ids, and a third reusing either email is refused with no change |
| AuthLaws.GuestBookingBlocksSignup | server/routes/booking.js:46-56 | after a guest booking under an email, signing up with that email is refused as taken |
| AuthLaws.FirstSignup | server/routes/auth.js:39-47 | on a fresh store a request obeying the signup rules is accepted, the first user gets id 1 and is the only user, and no booking exists |
| AuthLaws.GuestLogin | server/routes/booking.js:53 | logging in as a guest-created user succeeds exactly when bcrypt accepts the password against the placeholder "booking-user" |

## Left out

- Express wiring, CORS, body parsing, the health route, the 404 fallback and the port listener in `server/app.js`: HTTP plumbing.
- Token verification: `server/middleware/auth.js` is not part of this model. The protected routes take the verified subject's user id as `caller`. The 401 for a missing or bad token is not modelled.
- bcrypt's `hash` and `compare`, the JWT signer and zod's `.email()` test are opaque function values in `Records.Capabilities`. bcrypt's random salt is folded into `hash`, and the signer's issue and expiry times are folded into `sign`, so two tokens for the same id and email are equal in the model even when issued at different times.
- Prisma itself. The store is a value, and the only store refusals modelled are those caused by the request's own values: a non-string email, name or phone, a party size that is not a whole number (a fraction, `true`, or the types named below), a note that is neither a string nor falsy, or a `:id` from which `parseInt` reads no digits (NaN, refused by the lookups of GET, PUT and DELETE `/booking/:id`). Their message is a placeholder, `Records.StoreFault`, not Prisma's text. Faults of the store itself, such as a lost connection, are left out. The Prisma schema is not part of this model: name, email, mobile, date, time and the note are taken to be string columns, the party size an integer column, and the default booking status is a field of the store.
- Ids beyond the store's integer column range, and `parseInt` results beyond 2^53, are treated as ordinary integers.
- Bookings.CreateBooking: a party size that is a string, array or object is compared only after JavaScript's numeric coercion. The model does not coerce and lets such a value through, so the store refuses it (500). The handler would answer 400 for a numeric string outside 1..10, e.g. "20" from a form-encoded body.
- Auth.Signup: zod measures `.min()` in UTF-16 code units. The model counts characters, so the two differ for names and passwords with characters outside the Basic Multilingual Plane.
- Bookings.UpdateBooking: a JSON body that is not an object (an array, say) would fail zod's object check. The model takes the body as an object whose keys may be absent.
- Auth.Signup: a JSON body that is an array would be answered 400 "Expected object, received array" by zod's object check. The model takes the body as an object whose keys may be absent, so it cannot express that input.
- Auth.Login: the same holds for the login body.
- Bookings.MyBookings: bookings created at the same instant are listed with the later id first. The store guarantees no particular order for them.
- Concurrency between requests, such as two signups racing on one email: each request is atomic here.
- The React/Next.js components and `server/tests/health.js`: UI, timers and fetch, and a file-existence test.

=== FILE: auth.dfy ===
/**
 * The auth router: `POST /signup` and `POST /login`, with their zod schemas.
 */
module Auth {
  import opened JsonValue
  import opened Shapes
  import opened Zod
  import opened Records

  const NameTooShort := "Name must be at least 2 characters"
  const InvalidEmail := "Invalid email"
  const MobileNotTenDigits := "Mobile must be 10 digits"
  const PasswordTooShort := "Password must be at least 6 characters"
  const PasswordRequired := "Password is required"
  const EmailTaken := "Email already exists"
  const InvalidCredentials := "Invalid credentials"
  const UserCreated := "User created successfully"
  const LoginSuccessful := "Login successful"

  datatype SignupRequest = SignupRequest(name: Value, email: Value, mobile: Value, password: Value)

  datatype LoginRequest = LoginRequest(email: Value, password: Value)

  /** The success body of both routes: a token and the user's public fields. */
  datatype Session = Session(message: string, token: string, user: PublicUser)

  // The issues of one key: its type check, then its refinement.

  function NameIssues(v: Value): seq<string> {
    match v
    case Str(s) => if |s| >= 2 then [] else [NameTooShort]
    case _ => [TypeIssue("string", v)]
  }

  function EmailIssues(caps: Capabilities, v: Value): seq<string> {
    match v
    case Str(s) => if caps.isEmail(s) then [] else [InvalidEmail]
    case _ => [TypeIssue("string", v)]
  }

  function MobileIssues(v: Value): seq<string> {
    match v
    case Str(s) => if IsMobileShape(s) then [] else [MobileNotTenDigits]
    case _ => [TypeIssue("string", v)]
  }

  function PasswordIssues(v: Value, min: nat, message: string): seq<string> {
    match v
    case Str(s) => if |s| >= min then [] else [message]
    case _ => [TypeIssue("string", v)]
  }

  /** `signupSchema`: name, email, mobile, password, in that order. */
  function SignupIssues(caps: Capabilities, q: SignupRequest): seq<string> {
    NameIssues(q.name) + EmailIssues(caps, q.email) + MobileIssues(q.mobile)
      + PasswordIssues(q.password, 6, PasswordTooShort)
  }

  /** `loginSchema`: email, then password. */
  function LoginIssues(caps: Capabilities, q: LoginRequest): seq<string> {
    EmailIssues(caps, q.email) + PasswordIssues(q.password, 1, PasswordRequired)
  }

  // The rules the schemas enforce, stated directly.

  predicate NameOk(v: Value) { v.Str? && |v.s| >= 2 }

  predicate EmailOk(caps: Capabilities, v: Value) { v.Str? && caps.isEmail(v.s) }

  predicate MobileOk(v: Value) { v.Str? && IsMobileShape(v.s) }

  predicate PasswordOk(v: Value, min: nat) { v.Str? && |v.s| >= min }

  predicate SignupOk(caps: Capabilities, q: SignupRequest) {
    NameOk(q.name) && EmailOk(caps, q.email) && MobileOk(q.mobile) && PasswordOk(q.password, 6)
  }

  predicate LoginOk(caps: Capabilities, q: LoginRequest) {
    EmailOk(caps, q.email) && PasswordOk(q.password, 1)
  }

  /** zod reports nothing exactly when every rule holds. */
  lemma SignupIssuesIff(caps: Capabilities, q: SignupRequest)
    ensures SignupIssues(caps, q) == [] <==> SignupOk(caps, q)
  {
  }

  lemma LoginIssuesIff(caps: Capabilities, q: LoginRequest)
    ensures LoginIssues(caps, q) == [] <==> LoginOk(caps, q)
  {
  }

  /** The message zod reports for a key that breaks its rule. */
  function StringRuleMessage(v: Value, message: string): string {
    if v.Str? then message else TypeIssue("string", v)
  }

  /**
   * `POST /signup`: validate, refuse a taken email, store the user with the
   * hashed password, and answer 201 with a token for (id, email).
   */
  function Signup(caps: Capabilities, s: Store, q: SignupRequest): (r: Reply<Session>)
    requires Valid(s)
    ensures r.status in {201, 400}
    ensures r.Done? <==> SignupOk(caps, q) && q.email.s !in s.users
    ensures r.Fail? ==> r.status == 400 && r.store == s
    ensures r.store.defaultStatus == s.defaultStatus
    // the first broken rule, in the schema's order, is the one reported
    ensures !NameOk(q.name) ==> r.error == StringRuleMessage(q.name, NameTooShort)
    ensures NameOk(q.name) && !EmailOk(caps, q.email) ==>
      r.error == StringRuleMessage(q.email, InvalidEmail)
    ensures NameOk(q.name) && EmailOk(caps, q.email) && !MobileOk(q.mobile) ==>
      r.error == StringRuleMessage(q.mobile, MobileNotTenDigits)
    ensures NameOk(q.name) && EmailOk(caps, q.email) && MobileOk(q.mobile) && !PasswordOk(q.password, 6) ==>
      r.error == StringRuleMessage(q.password, PasswordTooShort)
    ensures SignupOk(caps, q) && q.email.s in s.users ==> r.error == EmailTaken
    // exactly one new user, with a fresh id and the hash of the password
    ensures r.Done? ==> q.email.s in r.store.users
    ensures r.Done? ==>
      var u := r.store.users[q.email.s];
      && r.status == 201
      && r.value.message == UserCreated
      && u.id !in UserIds(s)
      && r.store.users == s.users[q.email.s := User(u.id, q.name.s, q.email.s, q.mobile.s, caps.hash(q.password.s))]
      && r.store.bookings == s.bookings
      && Valid(r.store)
      && r.value.token == caps.sign(u.id, q.email.s)
      && r.value.user == PublicUser(u.id, q.name.s, q.email.s, q.mobile.s)
  {
    SignupIssuesIff(caps, q);
    var issues := SignupIssues(caps, q);
    if issues != [] then Fail(400, issues[0], s)
    else if q.email.s in s.users then Fail(400, EmailTaken, s)
    else
      var s' := AddUser(s, q.name.s, q.email.s, q.mobile.s, caps.hash(q.password.s));
      var u := s'.users[q.email.s];
      Done(201, Session(UserCreated, caps.sign(u.id, u.email), Public(u)), s')
  }

  /**
   * `POST /login`: validate, then answer the same 401 for an unknown email
   * and for a wrong password; never changes the store.
   */
  function Login(caps: Capabilities, s: Store, q: LoginRequest): (r: Reply<Session>)
    ensures r.store == s
    ensures r.status in {200, 400, 401}
    ensures r.Done? <==>
      LoginOk(caps, q) && q.email.s in s.users && caps.compare(q.password.s, s.users[q.email.s].password)
    ensures !EmailOk(caps, q.email) ==> r == Fail(400, StringRuleMessage(q.email, InvalidEmail), s)
    ensures EmailOk(caps, q.email) && !PasswordOk(q.password, 1) ==>
      r == Fail(400, StringRuleMessage(q.password, PasswordRequired), s)
    ensures r.status == 401 <==> LoginOk(caps, q) && !r.Done?
    ensures r.status == 401 ==> r.error == InvalidCredentials
    ensures r.Done? ==>
      var u := s.users[q.email.s];
      && r.status == 200
      && r.value.message == LoginSuccessful
      && r.value.token == caps.sign(u.id, u.email)
      && r.value.user == Public(u)
  {
    LoginIssuesIff(caps, q);
    var issues := LoginIssues(caps, q);
    if issues != [] then Fail(400, issues[0], s)
    else if q.email.s !in s.users then Fail(401, InvalidCredentials, s)
    else if !caps.compare(q.password.s, s.users[q.email.s].password) then Fail(401, InvalidCredentials, s)
    else
      var u := s.users[q.email.s];
      Done(200, Session(LoginSuccessful, caps.sign(u.id, u.email), Public(u)), s)
  }
}

=== FILE: auth_laws.dfy ===
/**
 * Properties that relate several identity requests, and the identity side
 * effects of guest bookings.
 */
module AuthLaws {
  import opened JsonValue
  import opened Records
  import opened Auth
  import Bookings

  /**
   * Logging in with the email and password just signed up with succeeds for
   * the same user, with a token signed for the same id and email, provided
   * bcrypt accepts a password against its own hash.
   */
  lemma SignupThenLogin(caps: Capabilities, s: Store, q: SignupRequest)
    requires Valid(s)
    requires Signup(caps, s, q).Done?
    requires caps.compare(q.password.s, caps.hash(q.password.s))
    ensures
      var r := Signup(caps, s, q);
      var l := Login(caps, r.store, LoginRequest(q.email, q.password));
      && l.Done? && l.status == 200
      && l.value.token == caps.sign(r.value.user.id, r.value.user.email)
      && l.value.user == r.value.user
  {
    var r := Signup(caps, s, q);
    assert r.store.users[q.email.s].password == caps.hash(q.password.s);
  }

  /** An unknown email and a wrong password get the very same answer. */
  lemma LoginFailuresAlike(caps: Capabilities, s: Store, unknown: LoginRequest, wrong: LoginRequest)
    requires LoginOk(caps, unknown) && unknown.email.s !in s.users
    requires LoginOk(caps, wrong) && wrong.email.s in s.users
    requires !caps.compare(wrong.password.s, s.users[wrong.email.s].password)
    ensures Login(caps, s, unknown) == Login(caps, s, wrong) == Fail(401, InvalidCredentials, s)
  {
  }

  /**
   * Two signups with different emails give two different ids; a third with
   * an email already used is refused and changes nothing.
   */
  lemma SignupsGetDistinctIds(caps: Capabilities, s: Store, a: SignupRequest, b: SignupRequest, c: SignupRequest)
    requires Valid(s)
    requires Signup(caps, s, a).Done?
    requires Signup(caps, Signup(caps, s, a).store, b).Done?
    requires SignupOk(caps, c) && (c.email.s == a.email.s || c.email.s == b.email.s)
    ensures
      var r1 := Signup(caps, s, a);
      var r2 := Signup(caps, r1.store, b);
      && a.email.s != b.email.s
      && r1.value.user.id != r2.value.user.id
      && Signup(caps, r2.store, c) == Fail(400, EmailTaken, r2.store)
  {
    var r1 := Signup(caps, s, a);
    var r2 := Signup(caps, r1.store, b);
    assert a.email.s in r1.store.users;
    assert b.email.s !in r1.store.users;
    assert r1.value.user.id in UserIds(r1.store) by {
      assert r1.store.users[a.email.s].id == r1.value.user.id;
    }
    assert r2.value.user.id !in UserIds(r1.store) by {
      assert r2.value.user.id == r2.store.users[b.email.s].id;
    }
    assert a.email.s in r2.store.users && b.email.s in r2.store.users;
  }

  /**
   * A guest booking under a new email creates a user with that email, so a
   * later signup with it is refused as taken.
   */
  lemma GuestBookingBlocksSignup(caps: Capabilities, s: Store, q: Bookings.BookRequest, now: int, sign: SignupRequest)
    requires Valid(s)
    requires Bookings.CreateBooking(s, q, now).Done?
    requires SignupOk(caps, sign) && sign.email == q.email
    ensures
      var s' := Bookings.CreateBooking(s, q, now).store;
      Signup(caps, s', sign) == Fail(400, EmailTaken, s')
  {
  }

  /**
   * A user made by a guest booking holds the placeholder password, so logging
   * in as it succeeds exactly when bcrypt accepts a password against that
   * placeholder.
   */
  lemma GuestLogin(caps: Capabilities, s: Store, q: Bookings.BookRequest, now: int, l: LoginRequest)
    requires Valid(s)
    requires q.email.Str? && q.email.s !in s.users
    requires Bookings.CreateBooking(s, q, now).Done?
    requires LoginOk(caps, l) && l.email == q.email
    ensures
      var s' := Bookings.CreateBooking(s, q, now).store;
      Login(caps, s', l).Done? <==> caps.compare(l.password.s, Bookings.GuestPassword)
  {
  }

  /**
   * On a fresh store, a request that obeys the signup rules is accepted, and
   * the first user gets id 1 (the user table's autoincrement starts at 1).
   */
  lemma FirstSignup(caps: Capabilities, defaultStatus: string, q: SignupRequest)
    requires SignupOk(caps, q)
    ensures
      var r := Signup(caps, EmptyStore(defaultStatus), q);
      && r.Done? && r.status == 201
      && r.value.user.id == 1
      && r.store.users.Keys == {q.email.s}
      && r.store.bookings == map[]
  {
  }
}

=== FILE: booking_laws.dfy ===
/**
 * Properties that relate several booking requests: what one request leaves
 * behind, the next one sees.
 */
module BookingLaws {
  import opened Optional
  import opened JsonValue
  import opened JsParseInt
  import opened Records
  import opened Bookings

  /** The id a creation reply shows, written into a URL, reads back the stored booking for its owner. */
  lemma CreateThenGet(s: Store, q: BookRequest, now: int)
    requires Valid(s)
    requires CreateBooking(s, q, now).Done?
    ensures
      var r := CreateBooking(s, q, now);
      var id := r.value.booking.id;
      && id >= 1
      && GetBooking(r.store, r.store.users[q.email.s].id, DecimalString(id)) == Done(200, r.store.bookings[id], r.store)
  {
    var r := CreateBooking(s, q, now);
    var id := r.value.booking.id;
    assert id in r.store.bookings;
    ParseIntRoundTrip(id);
  }

  /** Two guest bookings under one new email make one user and two bookings, both that user's. */
  lemma GuestBookingsShareUser(s: Store, q1: BookRequest, q2: BookRequest, t1: int, t2: int)
    requires Valid(s)
    requires q1.email == q2.email && q1.email.Str? && q1.email.s !in s.users
    requires CreateBooking(s, q1, t1).Done?
    requires CreateBooking(CreateBooking(s, q1, t1).store, q2, t2).Done?
    ensures
      var r1 := CreateBooking(s, q1, t1);
      var r2 := CreateBooking(r1.store, q2, t2);
      var e := q1.email.s;
      var id1 := r1.value.booking.id;
      var id2 := r2.value.booking.id;
      && r2.store.users.Keys == s.users.Keys + {e}
      && (forall f :: f in s.users ==> r2.store.users[f] == s.users[f])
      && id1 != id2
      && r2.store.bookings.Keys == s.bookings.Keys + {id1, id2}
      && r2.store.bookings[id1].userId == r2.store.bookings[id2].userId == r2.store.users[e].id
  {
    var r1 := CreateBooking(s, q1, t1);
    var r2 := CreateBooking(r1.store, q2, t2);
    assert r1.value.booking.id in r1.store.bookings;
  }

  /** After a cancellation, fetching the same id answers 404. */
  lemma CancelThenGet(s: Store, caller: int, idParam: string)
    requires CancelBooking(s, caller, idParam).Done?
    ensures
      var s' := CancelBooking(s, caller, idParam).store;
      GetBooking(s', caller, idParam) == Fail(404, NotFound, s')
  {
  }

  /** Cancelling removes one booking and touches nothing else. */
  lemma CancelKeepsOthers(s: Store, caller: int, idParam: string, k: int)
    requires Valid(s)
    requires CancelBooking(s, caller, idParam).Done?
    requires ParseInt(idParam) != Some(k)
    ensures
      var s' := CancelBooking(s, caller, idParam).store;
      && Valid(s')
      && (k in s'.bookings <==> k in s.bookings)
      && (k in s.bookings ==> s'.bookings[k] == s.bookings[k])
  {
    var s' := CancelBooking(s, caller, idParam).store;
    assert s'.bookings == s.bookings - {ParseInt(idParam).value};
    assert UserIds(s') == UserIds(s);
  }

  /** After an update, fetching the booking shows the updated record. */
  lemma UpdateThenGet(s: Store, caller: int, idParam: string, p: BookingPatch)
    requires UpdateBooking(s, caller, idParam, p).Done?
    ensures
      var r := UpdateBooking(s, caller, idParam, p);
      GetBooking(r.store, caller, idParam) == Done(200, r.value.booking, r.store)
  {
  }

  /** Sending the same update twice has the effect of sending it once. */
  lemma UpdateIdempotent(s: Store, caller: int, idParam: string, p: BookingPatch)
    requires UpdateBooking(s, caller, idParam, p).Done?
    ensures
      var r := UpdateBooking(s, caller, idParam, p);
      UpdateBooking(r.store, caller, idParam, p) == r
  {
    var r := UpdateBooking(s, caller, idParam, p);
    var id := ParseInt(idParam).value;
    var r2 := UpdateBooking(r.store, caller, idParam, p);
    assert r2.value.booking == r.value.booking;
  }

  /** An update keeps the store's guarantees. */
  lemma UpdateKeepsValid(s: Store, caller: int, idParam: string, p: BookingPatch)
    requires Valid(s)
    ensures Valid(UpdateBooking(s, caller, idParam, p).store)
  {
    var r := UpdateBooking(s, caller, idParam, p);
    if r.Done? {
      assert UserIds(r.store) == UserIds(s);
    }
  }

  /** A body with only `specialRequest` changes the note and nothing else. */
  lemma NoteOnlyUpdate(s: Store, caller: int, idParam: string, note: string)
    requires ParseInt(idParam).Some? && Owns(s, caller, ParseInt(idParam).value)
    ensures
      var r := UpdateBooking(s, caller, idParam, BookingPatch(Undefined, Undefined, Undefined, Str(note)));
      var was := s.bookings[ParseInt(idParam).value];
      && r.Done?
      && r.value.booking == was.(specialRequest := Some(note))
  {
  }

  /** Someone other than the owner is refused all three operations on an existing booking. */
  lemma StrangerRefused(s: Store, caller: int, idParam: string, p: BookingPatch)
    requires ParseInt(idParam).Some? && ParseInt(idParam).value in s.bookings
    requires s.bookings[ParseInt(idParam).value].userId != caller
    ensures GetBooking(s, caller, idParam) == Fail(403, NotYoursToView, s)
    ensures PatchOk(p) ==> UpdateBooking(s, caller, idParam, p) == Fail(403, NotYoursToUpdate, s)
    ensures CancelBooking(s, caller, idParam) == Fail(403, NotYoursToCancel, s)
  {
  }
}

=== FILE: bookings.dfy ===
/**
 * The booking router: `POST /book` (no token), and `GET /my-bookings`,
 * `GET`, `PUT` and `DELETE /booking/:id` (token required). The verified
 * token is not modelled; its subject's user id arrives as `caller`.
 */
module Bookings {
  import opened Optional
  import opened JsonValue
  import opened Shapes
  import opened JsParseInt
  import opened Zod
  import opened Records

  const MissingFields := "Missing required fields: name, email, phone, date, time, numberOfPeople"
  const BadDateOrTime := "Invalid date (YYYY-MM-DD) or time (HH:MM) format"
  const BadPartySize := "Number of people must be between 1 and 10"
  const BookingCreatedMessage := "Booking created successfully! We'll contact you soon."
  const BookingUpdatedMessage := "Booking updated successfully"
  const BookingCancelledMessage := "Booking cancelled successfully"
  const NotFound := "Booking not found"
  const NotYoursToView := "Not authorized to view this booking"
  const NotYoursToUpdate := "Not authorized to update this booking"
  const NotYoursToCancel := "Not authorized to cancel this booking"
  const DateMessage := "Date must be YYYY-MM-DD"
  const TimeMessage := "Time must be HH:MM"
  const AtLeastOne := "At least 1 person required"
  const AtMostTen := "Maximum 10 people"

  /** The password stored for a user created by a guest booking. */
  const GuestPassword := "booking-user"

  // ---------------------------------------------------------------------
  // POST /book

  datatype BookRequest = BookRequest(
    name: Value, email: Value, phone: Value, date: Value, time: Value,
    numberOfPeople: Value, specialRequest: Value)

  /** The booking fields the creation reply shows. */
  datatype BookingSummary = BookingSummary(
    id: int, date: string, time: string, numberOfPeople: int, status: string, createdAt: int)

  datatype BookingCreated = BookingCreated(message: string, booking: BookingSummary)

  predicate HasRequiredFields(q: BookRequest) {
    && Truthy(q.name) && Truthy(q.email) && Truthy(q.phone)
    && Truthy(q.date) && Truthy(q.time) && Truthy(q.numberOfPeople)
  }

  /** Both format tests pass (`.match` is only ever called on strings here). */
  predicate ShapesOk(q: BookRequest) {
    q.date.Str? && IsDateShape(q.date.s) && q.time.Str? && IsTimeShape(q.time.s)
  }

  /**
   * `numberOfPeople < 1 || numberOfPeople > 10` on a number. For other JSON
   * types JavaScript would coerce first; the model lets them through.
   */
  predicate PartyOutOfRange(v: Value) {
    v.Num? && (v.n < 1.0 || v.n > 10.0)
  }

  /** The store takes only a whole number for the party size. */
  predicate PartyStorable(v: Value) {
    v.Num? && IsInteger(v.n)
  }

  /** `specialRequest || null` is a string or null, which the store takes. */
  predicate NoteStorable(v: Value) {
    !Truthy(v) || v.Str?
  }

  /** The guest user the booking is attached to can be found or stored. */
  predicate OwnerStorable(s: Store, q: BookRequest) {
    q.email.Str? && (q.email.s in s.users || (q.name.Str? && q.phone.Str?))
  }

  function Summary(b: Booking): BookingSummary {
    BookingSummary(b.id, b.date, b.time, b.numberOfPeople, b.status, b.createdAt)
  }

  /**
   * `POST /book` at time `now`: required fields, then formats, then the party
   * size, then find-or-create the user by email, then store the booking.
   */
  function CreateBooking(s: Store, q: BookRequest, now: int): (r: Reply<BookingCreated>)
    requires Valid(s)
    ensures r.status in {201, 400, 500}
    ensures Valid(r.store)
    ensures r.status == 400 ==> r.store == s
    ensures r.Fail? ==> r.store.bookings == s.bookings
    ensures r.store.defaultStatus == s.defaultStatus
    // the checks, in order
    ensures !HasRequiredFields(q) ==> r == Fail(400, MissingFields, s)
    ensures q.numberOfPeople == Num(0.0) ==> r == Fail(400, MissingFields, s)
    ensures HasRequiredFields(q) && q.date.Str? && !IsDateShape(q.date.s) ==> r == Fail(400, BadDateOrTime, s)
    ensures
      (HasRequiredFields(q) && q.date.Str? && IsDateShape(q.date.s) && q.time.Str? && !IsTimeShape(q.time.s)) ==>
      r == Fail(400, BadDateOrTime, s)
    ensures HasRequiredFields(q) && ShapesOk(q) && PartyOutOfRange(q.numberOfPeople) ==>
      r == Fail(400, BadPartySize, s)
    // exactly these three checks answer 400
    ensures r.status == 400 <==>
      || !HasRequiredFields(q)
      || (q.date.Str? && (!IsDateShape(q.date.s)
            || (q.time.Str? && (!IsTimeShape(q.time.s) || PartyOutOfRange(q.numberOfPeople)))))
    // `.match` on a value that is not a string throws
    ensures HasRequiredFields(q) && !q.date.Str? ==> r == Fail(500, "date.match is not a function", s)
    ensures HasRequiredFields(q) && q.date.Str? && IsDateShape(q.date.s) && !q.time.Str? ==>
      r == Fail(500, "time.match is not a function", s)
    ensures r.status == 500 && ShapesOk(q) ==> r.Fail? && r.error == StoreFault
    // a store refusal leaves the users as they were, or with just the new guest user
    ensures r.status == 500 ==>
      || r.store.users == s.users
      || (&& q.email.Str? && q.name.Str? && q.phone.Str?
          && q.email.s !in s.users && q.email.s in r.store.users
          && r.store.users[q.email.s].id !in UserIds(s)
          && r.store.users == s.users[q.email.s :=
               User(r.store.users[q.email.s].id, q.name.s, q.email.s, q.phone.s, GuestPassword)])
    // the guest user is stored before the booking is refused, and stays
    ensures
      (&& HasRequiredFields(q) && ShapesOk(q) && !PartyOutOfRange(q.numberOfPeople) && OwnerStorable(s, q)
       && !(PartyStorable(q.numberOfPeople) && NoteStorable(q.specialRequest))) ==>
      r.status == 500 && q.email.s in r.store.users
    ensures r.Done? <==>
      && HasRequiredFields(q) && ShapesOk(q) && !PartyOutOfRange(q.numberOfPeople)
      && OwnerStorable(s, q) && PartyStorable(q.numberOfPeople) && NoteStorable(q.specialRequest)
    // find-or-create: an existing user is reused untouched, else exactly one is added
    ensures r.Done? ==> q.email.s in r.store.users
    ensures r.Done? && q.email.s in s.users ==> r.store.users == s.users
    ensures r.Done? && q.email.s !in s.users ==>
      && r.store.users[q.email.s].id !in UserIds(s)
      && r.store.users == s.users[q.email.s :=
           User(r.store.users[q.email.s].id, q.name.s, q.email.s, q.phone.s, GuestPassword)]
    // exactly one booking is added, owned by that user
    ensures r.Done? ==>
      var id := r.value.booking.id;
      && id !in s.bookings
      && r.value.message == BookingCreatedMessage
      && r.status == 201
      && r.store.bookings.Keys == s.bookings.Keys + {id}
      && (forall k :: k in s.bookings ==> r.store.bookings[k] == s.bookings[k])
      && var b := r.store.bookings[id];
      && r.value.booking == Summary(b)
      && b.id == id
      && b.userId == r.store.users[q.email.s].id
      && b.date == q.date.s && b.time == q.time.s
      && b.numberOfPeople as real == q.numberOfPeople.n
      && b.specialRequest == (if Truthy(q.specialRequest) then Some(q.specialRequest.s) else None)
      && b.status == s.defaultStatus
      && b.createdAt == now
  {
    if !HasRequiredFields(q) then Fail(400, MissingFields, s)
    else if !q.date.Str? then Fail(500, "date.match is not a function", s)
    else if !IsDateShape(q.date.s) then Fail(400, BadDateOrTime, s)
    else if !q.time.Str? then Fail(500, "time.match is not a function", s)
    else if !IsTimeShape(q.time.s) then Fail(400, BadDateOrTime, s)
    else if PartyOutOfRange(q.numberOfPeople) then Fail(400, BadPartySize, s)
    else if !OwnerStorable(s, q) then Fail(500, StoreFault, s)
    else
      var s1 := if q.email.s in s.users then s
                else AddUser(s, q.name.s, q.email.s, q.phone.s, GuestPassword);
      if !(PartyStorable(q.numberOfPeople) && NoteStorable(q.specialRequest)) then
        // the user row, if one was just made, stays behind
        Fail(500, StoreFault, s1)
      else
        var owner := s1.users[q.email.s];
        assert owner.id in UserIds(s1);
        var note := if Truthy(q.specialRequest) then Some(q.specialRequest.s) else None;
        var b := Booking(s1.nextBookingId, owner.id, q.date.s, q.time.s,
                         q.numberOfPeople.n.Floor, note, s1.defaultStatus, now);
        Done(201, BookingCreated(BookingCreatedMessage, Summary(b)), AddBooking(s1, b))
  }

  // ---------------------------------------------------------------------
  // GET /my-bookings

  predicate NewestFirst(xs: seq<Booking>) {
    forall i, j :: 0 <= i < j < |xs| ==> xs[i].createdAt >= xs[j].createdAt
  }

  predicate DistinctIds(xs: seq<Booking>) {
    forall i, j :: 0 <= i < j < |xs| ==> xs[i].id != xs[j].id
  }

  /** Inserts a booking into a newest-first list, before those no newer than it. */
  function Insert(xs: seq<Booking>, b: Booking): (r: seq<Booking>)
    requires NewestFirst(xs)
    ensures |r| == |xs| + 1
    ensures forall x :: x in r <==> x in xs || x == b
    ensures NewestFirst(r)
  {
    if xs == [] || b.createdAt >= xs[0].createdAt then
      [b] + xs
    else
      var rest := Insert(xs[1..], b);
      assert forall x :: x in xs <==> x == xs[0] || x in xs[1..] by {
        assert xs == [xs[0]] + xs[1..];
      }
      forall j | 0 <= j < |rest| ensures rest[j].createdAt <= xs[0].createdAt {
        assert rest[j] in rest;
        if rest[j] != b {
          var m :| 0 <= m < |xs[1..]| && xs[1..][m] == rest[j];
          assert xs[m + 1] == rest[j];
        }
      }
      [xs[0]] + rest
  }

  /** The inserted list holds the old list's bookings and the new one, nothing more or less. */
  lemma {:induction false} InsertIsPermutation(xs: seq<Booking>, b: Booking)
    requires NewestFirst(xs)
    ensures multiset(Insert(xs, b)) == multiset(xs) + multiset{b}
  {
    if xs != [] && b.createdAt < xs[0].createdAt {
      InsertIsPermutation(xs[1..], b);
      assert xs == [xs[0]] + xs[1..];
      assert Insert(xs, b) == [xs[0]] + Insert(xs[1..], b);
    }
  }

  lemma {:induction false} InsertKeepsIdsDistinct(xs: seq<Booking>, b: Booking)
    requires NewestFirst(xs) && DistinctIds(xs)
    requires forall x :: x in xs ==> x.id != b.id
    ensures DistinctIds(Insert(xs, b))
  {
    if xs == [] || b.createdAt >= xs[0].createdAt {
    } else {
      InsertKeepsIdsDistinct(xs[1..], b);
      var rest := Insert(xs[1..], b);
      var r := Insert(xs, b);
      assert r == [xs[0]] + rest;
      forall j | 0 < j < |r| ensures r[0].id != r[j].id {
        assert r[j] == rest[j - 1];
        assert r[j] in rest;
        if r[j] != b {
          var m :| 0 <= m < |xs[1..]| && xs[1..][m] == r[j];
          assert xs[m + 1] == r[j];
        }
      }
      forall i, j | 0 < i < j < |r| ensures r[i].id != r[j].id {
        assert r[i] == rest[i - 1] && r[j] == rest[j - 1];
      }
    }
  }

  /**
   * `GET /my-bookings`: every booking of the caller, each once, newest first.
   * Bookings created at the same instant come in an order the store picks;
   * here the later id comes first.
   */
  method MyBookings(s: Store, caller: int) returns (r: Reply<seq<Booking>>)
    requires Valid(s)
    ensures r.Done? && r.status == 200 && r.store == s
    ensures forall b :: b in r.value ==> b.id in s.bookings && s.bookings[b.id] == b && b.userId == caller
    ensures forall k :: k in s.bookings && s.bookings[k].userId == caller ==> s.bookings[k] in r.value
    ensures DistinctIds(r.value)
    ensures NewestFirst(r.value)
  {
    var list: seq<Booking> := [];
    var id := 1;
    while id < s.nextBookingId
      invariant 1 <= id <= s.nextBookingId
      invariant NewestFirst(list)
      invariant DistinctIds(list)
      invariant forall b :: b in list ==> b.id in s.bookings && s.bookings[b.id] == b && b.userId == caller && b.id < id
      invariant forall k :: k in s.bookings && k < id && s.bookings[k].userId == caller ==> s.bookings[k] in list
    {
      if id in s.bookings && s.bookings[id].userId == caller {
        var b := s.bookings[id];
        InsertKeepsIdsDistinct(list, b);
        list := Insert(list, b);
      }
      id := id + 1;
    }
    r := Done(200, list, s);
  }

  // ---------------------------------------------------------------------
  // The guard shared by GET, PUT and DELETE /booking/:id

  datatype Access = Granted(id: int) | Denied(status: int, error: string)

  predicate Owns(s: Store, caller: int, id: int) {
    id in s.bookings && s.bookings[id].userId == caller
  }

  /**
   * Looks up `parseInt(idParam)`: an unparsable id is refused by the store,
   * a missing booking is 404, and only then is ownership checked (403).
   */
  function Authorize(s: Store, caller: int, idParam: string, notYours: string): (a: Access)
    ensures a.Granted? <==> ParseInt(idParam).Some? && Owns(s, caller, ParseInt(idParam).value)
    ensures a.Granted? ==> ParseInt(idParam) == Some(a.id)
    ensures ParseInt(idParam).None? ==> a == Denied(500, StoreFault)
    ensures ParseInt(idParam).Some? && ParseInt(idParam).value !in s.bookings ==> a == Denied(404, NotFound)
    ensures a == Denied(403, notYours) <==>
      ParseInt(idParam).Some? && ParseInt(idParam).value in s.bookings
      && s.bookings[ParseInt(idParam).value].userId != caller
  {
    match ParseInt(idParam)
    case None => Denied(500, StoreFault)
    case Some(id) =>
      if id !in s.bookings then Denied(404, NotFound)
      else if s.bookings[id].userId != caller then Denied(403, notYours)
      else Granted(id)
  }

  // ---------------------------------------------------------------------
  // GET /booking/:id

  function GetBooking(s: Store, caller: int, idParam: string): (r: Reply<Booking>)
    ensures r.store == s
    ensures r.status in {200, 403, 404, 500}
    ensures r.Done? <==> ParseInt(idParam).Some? && Owns(s, caller, ParseInt(idParam).value)
    ensures r.Done? ==> r.status == 200 && r.value == s.bookings[ParseInt(idParam).value]
    ensures ParseInt(idParam).None? ==> r == Fail(500, StoreFault, s)
    ensures r.status == 404 <==> ParseInt(idParam).Some? && ParseInt(idParam).value !in s.bookings
    ensures r.status == 404 ==> r.error == NotFound
    ensures r.status == 403 <==>
      ParseInt(idParam).Some? && ParseInt(idParam).value in s.bookings
      && s.bookings[ParseInt(idParam).value].userId != caller
    ensures r.status == 403 ==> r.error == NotYoursToView
  {
    match Authorize(s, caller, idParam, NotYoursToView)
    case Denied(status, error) => Fail(status, error, s)
    case Granted(id) => Done(200, s.bookings[id], s)
  }

  // ---------------------------------------------------------------------
  // PUT /booking/:id

  /** The body of an update; any key may be absent. */
  datatype BookingPatch = BookingPatch(date: Value, time: Value, numberOfPeople: Value, specialRequest: Value)

  datatype BookingUpdated = BookingUpdated(message: string, booking: Booking)

  function DateIssues(v: Value): seq<string> {
    match v
    case Undefined => []
    case Str(s) => if IsDateShape(s) then [] else [DateMessage]
    case _ => [TypeIssue("string", v)]
  }

  function TimeIssues(v: Value): seq<string> {
    match v
    case Undefined => []
    case Str(s) => if IsTimeShape(s) then [] else [TimeMessage]
    case _ => [TypeIssue("string", v)]
  }

  /** `.int()`, `.min(1)` and `.max(10)`, all checked, in that order. */
  function PartyIssues(v: Value): seq<string> {
    match v
    case Undefined => []
    case Num(n) =>
      (if IsInteger(n) then [] else [NotAnInteger])
      + (if n < 1.0 then [AtLeastOne] else [])
      + (if n > 10.0 then [AtMostTen] else [])
    case _ => [TypeIssue("number", v)]
  }

  function NoteIssues(v: Value): seq<string> {
    match v
    case Undefined => []
    case Str(_) => []
    case _ => [TypeIssue("string", v)]
  }

  /** `bookingSchema.partial()`: date, time, numberOfPeople, specialRequest. */
  function PatchIssues(p: BookingPatch): seq<string> {
    DateIssues(p.date) + TimeIssues(p.time) + PartyIssues(p.numberOfPeople) + NoteIssues(p.specialRequest)
  }

  predicate DateOk(v: Value) { v.Undefined? || (v.Str? && IsDateShape(v.s)) }

  predicate TimeOk(v: Value) { v.Undefined? || (v.Str? && IsTimeShape(v.s)) }

  predicate PartyOk(v: Value) { v.Undefined? || (v.Num? && IsInteger(v.n) && 1.0 <= v.n <= 10.0) }

  predicate NoteOk(v: Value) { v.Undefined? || v.Str? }

  /** Every present field obeys the creation rules, and the party size is whole. */
  predicate PatchOk(p: BookingPatch) {
    DateOk(p.date) && TimeOk(p.time) && PartyOk(p.numberOfPeople) && NoteOk(p.specialRequest)
  }

  lemma PatchIssuesIff(p: BookingPatch)
    ensures PatchIssues(p) == [] <==> PatchOk(p)
  {
  }

  /**
   * The update's data: date, time and numberOfPeople when truthy,
   * specialRequest whenever it is not undefined.
   */
  function Patched(b: Booking, p: BookingPatch): Booking
    requires PatchOk(p)
  {
    b.(date := if Truthy(p.date) then p.date.s else b.date,
       time := if Truthy(p.time) then p.time.s else b.time,
       numberOfPeople := if Truthy(p.numberOfPeople) then p.numberOfPeople.n.Floor else b.numberOfPeople,
       specialRequest := if !p.specialRequest.Undefined? then Some(p.specialRequest.s) else b.specialRequest)
  }

  /**
   * `PUT /booking/:id`: the body is validated before the booking is looked
   * up; then the guard; then the supplied fields replace the stored ones.
   */
  function UpdateBooking(s: Store, caller: int, idParam: string, p: BookingPatch): (r: Reply<BookingUpdated>)
    ensures r.status in {200, 400, 403, 404, 500}
    ensures r.Fail? ==> r.store == s
    // validation comes first, whatever the id
    ensures r.status == 400 <==> !PatchOk(p)
    ensures !DateOk(p.date) ==> r == Fail(400, DateIssues(p.date)[0], s)
    ensures DateOk(p.date) && !TimeOk(p.time) ==> r == Fail(400, TimeIssues(p.time)[0], s)
    ensures DateOk(p.date) && TimeOk(p.time) && !PartyOk(p.numberOfPeople) ==>
      r == Fail(400, PartyIssues(p.numberOfPeople)[0], s)
    ensures DateOk(p.date) && TimeOk(p.time) && PartyOk(p.numberOfPeople) && !NoteOk(p.specialRequest) ==>
      r == Fail(400, TypeIssue("string", p.specialRequest), s)
    ensures PatchOk(p) ==> r.status != 400
    ensures PatchOk(p) && ParseInt(idParam).None? ==> r == Fail(500, StoreFault, s)
    ensures PatchOk(p) && ParseInt(idParam).Some? && ParseInt(idParam).value !in s.bookings ==>
      r == Fail(404, NotFound, s)
    ensures
      (PatchOk(p) && ParseInt(idParam).Some? && ParseInt(idParam).value in s.bookings
       && s.bookings[ParseInt(idParam).value].userId != caller) ==> r == Fail(403, NotYoursToUpdate, s)
    ensures r.Done? <==> PatchOk(p) && ParseInt(idParam).Some? && Owns(s, caller, ParseInt(idParam).value)
    // only the supplied fields change, and only in this booking
    ensures r.Done? ==>
      var id := ParseInt(idParam).value;
      var was := s.bookings[id];
      var now := r.value.booking;
      && r.status == 200
      && r.value.message == BookingUpdatedMessage
      && r.store == s.(bookings := s.bookings[id := now])
      && now.id == was.id && now.userId == was.userId
      && now.status == was.status && now.createdAt == was.createdAt
      && now.date == (if p.date.Str? then p.date.s else was.date)
      && now.time == (if p.time.Str? then p.time.s else was.time)
      && now.numberOfPeople as real ==
           (if p.numberOfPeople.Num? then p.numberOfPeople.n else was.numberOfPeople as real)
      && now.specialRequest == (if p.specialRequest.Str? then Some(p.specialRequest.s) else was.specialRequest)
  {
    PatchIssuesIff(p);
    var issues := PatchIssues(p);
    if issues != [] then Fail(400, issues[0], s)
    else
      match Authorize(s, caller, idParam, NotYoursToUpdate)
      case Denied(status, error) => Fail(status, error, s)
      case Granted(id) =>
        var b := Patched(s.bookings[id], p);
        Done(200, BookingUpdated(BookingUpdatedMessage, b), s.(bookings := s.bookings[id := b]))
  }

  // ---------------------------------------------------------------------
  // DELETE /booking/:id

  /** `DELETE /booking/:id`: the guard, then the booking is removed outright. */
  function CancelBooking(s: Store, caller: int, idParam: string): (r: Reply<string>)
    ensures r.status in {200, 403, 404, 500}
    ensures r.Fail? ==> r.store == s
    ensures r.Done? <==> ParseInt(idParam).Some? && Owns(s, caller, ParseInt(idParam).value)
    ensures ParseInt(idParam).None? ==> r == Fail(500, StoreFault, s)
    ensures ParseInt(idParam).Some? && ParseInt(idParam).value !in s.bookings ==> r == Fail(404, NotFound, s)
    ensures
      (ParseInt(idParam).Some? && ParseInt(idParam).value in s.bookings
       && s.bookings[ParseInt(idParam).value].userId != caller) ==> r == Fail(403, NotYoursToCancel, s)
    ensures r.Done? ==>
      && r.status == 200
      && r.value == BookingCancelledMessage
      && r.store == s.(bookings := s.bookings - {ParseInt(idParam).value})
  {
    match Authorize(s, caller, idParam, NotYoursToCancel)
    case Denied(status, error) => Fail(status, error, s)
    case Granted(id) => Done(200, BookingCancelledMessage, s.(bookings := s.bookings - {id}))
  }
}

=== FILE: json_value.dfy ===
/**
 * The JSON values a route handler reads out of `req.body` after Express has
 * parsed it. A key that is absent from the body reads as `Undefined`. The
 * contents of arrays and objects never matter to the handlers, so they are
 * not kept.
 */
module JsonValue {

  datatype Value =
    | Undefined
    | Null
    | Bool(b: bool)
    | Num(n: real)
    | Str(s: string)
    | Arr
    | Obj

  /** JavaScript truthiness, the test behind `!x`, `x && …` and `x || …`. */
  predicate Truthy(v: Value) {
    match v
    case Undefined => false
    case Null => false
    case Bool(b) => b
    case Num(n) => n != 0.0
    case Str(s) => s != ""
    case Arr => true
    case Obj => true
  }
}

=== FILE: optional.dfy ===
/** An optional value: JavaScript's `null` in a stored column, `NaN` from `parseInt`. */
module Optional {
  datatype Option<+T> = None | Some(value: T)
}

=== FILE: parse_int.dfy ===
/**
 * JavaScript's `parseInt(s)` with no radix, which the routers apply to the
 * `:id` path parameter: leading white space is skipped, one sign is read, a
 * `0x`/`0X` prefix switches to hexadecimal, and the longest run of digits
 * that follows is the value; an empty run is `NaN` (`None` here). Anything
 * after the run is ignored.
 */
module JsParseInt {
  import opened Optional
  import opened Shapes

  /** The WhiteSpace and LineTerminator characters of ECMAScript. */
  predicate IsJsWhitespace(c: char) {
    || c == '\t' || c == '\n' || c == '\U{000B}' || c == '\U{000C}' || c == '\r' || c == ' '
    || c == '\U{00A0}' || c == '\U{1680}' || ('\U{2000}' <= c <= '\U{200A}')
    || c == '\U{2028}' || c == '\U{2029}' || c == '\U{202F}' || c == '\U{205F}'
    || c == '\U{3000}' || c == '\U{FEFF}'
  }

  /** The input with its leading white space removed. */
  function TrimStart(s: string): (t: string)
    ensures |t| <= |s| && t == s[|s| - |t|..]
    ensures t == [] || !IsJsWhitespace(t[0])
    ensures forall i :: 0 <= i < |s| - |t| ==> IsJsWhitespace(s[i])
  {
    if s != [] && IsJsWhitespace(s[0]) then TrimStart(s[1..]) else s
  }

  predicate IsRadixDigit(c: char, hex: bool) {
    IsDigit(c) || (hex && (('a' <= c <= 'f') || ('A' <= c <= 'F')))
  }

  function DigitValue(c: char): nat {
    if IsDigit(c) then c as nat - '0' as nat
    else if 'a' <= c <= 'f' then c as nat - 'a' as nat + 10
    else if 'A' <= c <= 'F' then c as nat - 'A' as nat + 10
    else 0
  }

  /** The longest prefix of `s` made of digits of the radix. */
  function DigitRun(s: string, hex: bool): (d: string)
    ensures d <= s
    ensures forall i :: 0 <= i < |d| ==> IsRadixDigit(d[i], hex)
    ensures |d| == |s| || !IsRadixDigit(s[|d|], hex)
  {
    if s != [] && IsRadixDigit(s[0], hex) then [s[0]] + DigitRun(s[1..], hex) else []
  }

  /** The number a run of digits denotes, most significant digit first. */
  function RunValue(d: string, hex: bool): nat {
    if d == [] then 0
    else RunValue(d[..|d| - 1], hex) * (if hex then 16 else 10) + DigitValue(d[|d| - 1])
  }

  /** The value of the digits at the head of an unsigned input, `0x` prefix included. */
  function Unsigned(u: string): Option<nat> {
    var hex := |u| >= 2 && u[0] == '0' && (u[1] == 'x' || u[1] == 'X');
    var d := DigitRun(if hex then u[2..] else u, hex);
    if d == [] then None else Some(RunValue(d, hex))
  }

  /** `parseInt` once the leading white space is gone: a sign, then the unsigned part. */
  function ParseTrimmed(t: string): Option<int> {
    if t != [] && t[0] == '-' then
      match Unsigned(t[1..])
      case None => None
      case Some(v) => Some(0 - v)
    else if t != [] && t[0] == '+' then
      match Unsigned(t[1..])
      case None => None
      case Some(v) => Some(v)
    else
      match Unsigned(t)
      case None => None
      case Some(v) => Some(v)
  }

  function ParseInt(s: string): Option<int> {
    ParseTrimmed(TrimStart(s))
  }

  function DigitChar(d: nat): (c: char)
    requires d < 10
    ensures IsDigit(c) && DigitValue(c) == d
  {
    ('0' as nat + d) as char
  }

  /** `String(n)` for a non-negative integer: how a client writes an id into a URL. */
  function DecimalString(n: nat): (s: string)
    ensures s != []
    ensures forall i :: 0 <= i < |s| ==> IsDigit(s[i])
    ensures s[0] == '0' <==> n == 0
    ensures n == 0 ==> s == "0"
  {
    if n < 10 then [DigitChar(n)] else DecimalString(n / 10) + [DigitChar(n % 10)]
  }

  lemma {:induction false} RunValueOfDecimal(n: nat)
    ensures RunValue(DecimalString(n), false) == n
  {
    if n >= 10 {
      var d := DecimalString(n);
      assert d[..|d| - 1] == DecimalString(n / 10);
      RunValueOfDecimal(n / 10);
    }
  }

  /** A run of digits followed by a non-digit is exactly the run `DigitRun` takes. */
  lemma {:induction false} DigitRunOfDigits(d: string, rest: string, hex: bool)
    requires forall i :: 0 <= i < |d| ==> IsRadixDigit(d[i], hex)
    requires rest == [] || !IsRadixDigit(rest[0], hex)
    ensures DigitRun(d + rest, hex) == d
  {
    if d != [] {
      assert (d + rest)[1..] == d[1..] + rest;
      DigitRunOfDigits(d[1..], rest, hex);
    } else {
      assert d + rest == rest;
    }
  }

  lemma UnsignedOfDecimal(n: nat, rest: string)
    requires rest == [] || (!IsDigit(rest[0]) && (n != 0 || (rest[0] != 'x' && rest[0] != 'X')))
    ensures Unsigned(DecimalString(n) + rest) == Some(n)
  {
    var d := DecimalString(n);
    var u := d + rest;
    assert u[0] == d[0];
    if n == 0 {
      assert |u| < 2 || u[1] == rest[0];
    } else {
      assert u[0] != '0';
    }
    DigitRunOfDigits(d, rest, false);
    RunValueOfDecimal(n);
  }

  /**
   * Reading back a written id: `parseInt(String(n) + rest) == n` whenever
   * `rest` does not continue the number. Only after `0` can an `x` or `X`
   * continue it, as a hex prefix: `parseInt("12x")` is 12, `parseInt("0x1")` is 1.
   */
  lemma ParseIntOfDecimal(n: nat, rest: string)
    requires rest == [] || (!IsDigit(rest[0]) && (n != 0 || (rest[0] != 'x' && rest[0] != 'X')))
    ensures ParseInt(DecimalString(n) + rest) == Some(n)
  {
    var s := DecimalString(n) + rest;
    assert IsDigit(s[0]) by {
      assert s[0] == DecimalString(n)[0];
    }
    assert !IsJsWhitespace(s[0]) && s[0] != '-' && s[0] != '+';
    assert TrimStart(s) == s;
    UnsignedOfDecimal(n, rest);
    assert ParseTrimmed(s) == Unsigned(s);
  }

  /** The form of an id the routers receive from a client: `String(id)` exactly. */
  lemma ParseIntRoundTrip(n: nat)
    ensures ParseInt(DecimalString(n)) == Some(n)
  {
    assert DecimalString(n) + [] == DecimalString(n);
    ParseIntOfDecimal(n, []);
  }

  lemma {:induction false} TrimStartSkipsWhitespace(w: string, s: string)
    requires forall i :: 0 <= i < |w| ==> IsJsWhitespace(w[i])
    ensures TrimStart(w + s) == TrimStart(s)
  {
    if w != [] {
      assert (w + s)[1..] == w[1..] + s;
      TrimStartSkipsWhitespace(w[1..], s);
    } else {
      assert w + s == s;
    }
  }

  /** Leading white space never changes the result. */
  lemma ParseIntSkipsWhitespace(w: string, s: string)
    requires forall i :: 0 <= i < |w| ==> IsJsWhitespace(w[i])
    ensures ParseInt(w + s) == ParseInt(s)
  {
    TrimStartSkipsWhitespace(w, s);
  }

  lemma UnsignedNaN(u: string)
    requires u == [] || !IsDigit(u[0])
    ensures Unsigned(u) == None
  {
    if u != [] {
      assert !IsRadixDigit(u[0], false);
    }
  }

  /** An input that starts with anything but white space, a sign or a digit is `NaN`. */
  lemma ParseIntNaN(s: string)
    requires s == [] || !(IsDigit(s[0]) || IsJsWhitespace(s[0]) || s[0] == '-' || s[0] == '+')
    ensures ParseInt(s) == None
  {
    assert TrimStart(s) == s;
    UnsignedNaN(s);
    assert ParseTrimmed(s) == Unsigned(s);
  }

  /**
   * `-` followed by a written number, and then anything that does not
   * continue it, reads back as its negation: `parseInt("-12abc")` is -12.
   */
  lemma ParseIntOfNegative(n: nat, rest: string)
    requires rest == [] || (!IsDigit(rest[0]) && (n != 0 || (rest[0] != 'x' && rest[0] != 'X')))
    ensures ParseInt("-" + DecimalString(n) + rest) == Some(0 - n as int)
  {
    var u := DecimalString(n) + rest;
    var s := "-" + DecimalString(n) + rest;
    assert s == ['-'] + u;
    assert s[0] == '-' && s[1..] == u;
    assert TrimStart(s) == s by {
      assert !IsJsWhitespace(s[0]);
    }
    UnsignedOfDecimal(n, rest);
    assert ParseTrimmed(s) == Some(0 - n as int);
  }

  lemma DecimalTwelve()
    ensures DecimalString(12) == "12"
  {
    assert DecimalString(1) == "1";
  }

  /** Trailing characters that do not continue the number are ignored. */
  lemma ParseIntExamples()
    ensures ParseInt("12abc") == Some(12)
    ensures ParseInt("12x") == Some(12)
  {
    var twelve := DecimalString(12);
    DecimalTwelve();
    assert "12abc" == twelve + "abc";
    ParseIntOfDecimal(12, "abc");
    assert "12x" == twelve + "x";
    ParseIntOfDecimal(12, "x");
  }

  /** Leading white space, then a sign. */
  lemma ParseIntSignedExample()
    ensures ParseInt(" -7") == Some(-7)
  {
    assert " -7" == " " + ("-" + DecimalString(7));
    ParseIntSkipsWhitespace(" ", "-" + DecimalString(7));
    ParseIntOfNegative(7, []);
    assert "-" + DecimalString(7) + [] == "-" + DecimalString(7);
  }
}

=== FILE: records.dfy ===
/**
 * The relational store the routers talk to, as an immutable value: users
 * keyed by their unique email, bookings keyed by their id, and the
 * auto-increment counters the store draws new ids from. Also the reply a
 * handler produces, and the foreign primitives it is given.
 */
module Records {
  import opened Optional

  datatype User = User(id: int, name: string, email: string, mobile: string, password: string)

  datatype Booking = Booking(
    id: int,
    userId: int,
    date: string,
    time: string,
    numberOfPeople: int,
    specialRequest: Option<string>,
    status: string,
    createdAt: int)

  /**
   * `defaultStatus` is the schema's default for a new booking's status; the
   * schema itself is not part of this model, so its value is left open.
   */
  datatype Store = Store(
    users: map<string, User>,
    bookings: map<int, Booking>,
    nextUserId: int,
    nextBookingId: int,
    defaultStatus: string)

  function UserIds(s: Store): set<int> {
    set e | e in s.users :: s.users[e].id
  }

  /**
   * What the store's schema guarantees: keys agree with the records, user ids
   * are unique, ids are positive and below the next id to hand out, and every
   * booking belongs to a stored user.
   */
  predicate Valid(s: Store) {
    && 1 <= s.nextUserId
    && 1 <= s.nextBookingId
    && (forall e :: e in s.users ==> s.users[e].email == e && 1 <= s.users[e].id < s.nextUserId)
    && (forall e, f :: e in s.users && f in s.users && s.users[e].id == s.users[f].id ==> e == f)
    && (forall k :: k in s.bookings ==> s.bookings[k].id == k && 1 <= k < s.nextBookingId)
    && (forall k :: k in s.bookings ==> s.bookings[k].userId in UserIds(s))
  }

  function EmptyStore(defaultStatus: string): (s: Store)
    ensures Valid(s)
    ensures s.users == map[] && s.bookings == map[]
  {
    Store(map[], map[], 1, 1, defaultStatus)
  }

  /** `prisma.user.create`: the new user gets the next user id. */
  function AddUser(s: Store, name: string, email: string, mobile: string, password: string): (s': Store)
    requires Valid(s) && email !in s.users
    ensures Valid(s')
    ensures s'.users == s.users[email := User(s.nextUserId, name, email, mobile, password)]
    ensures s.nextUserId !in UserIds(s)
    ensures s'.bookings == s.bookings && s'.defaultStatus == s.defaultStatus
  {
    var s' := s.(users := s.users[email := User(s.nextUserId, name, email, mobile, password)],
                 nextUserId := s.nextUserId + 1);
    assert UserIds(s) <= UserIds(s') by {
      forall x | x in UserIds(s) ensures x in UserIds(s') {
        var e :| e in s.users && s.users[e].id == x;
        assert s'.users[e].id == x;
      }
    }
    s'
  }

  /** `prisma.booking.create`: the new booking gets the next booking id. */
  function AddBooking(s: Store, b: Booking): (s': Store)
    requires Valid(s) && b.id == s.nextBookingId && b.userId in UserIds(s)
    ensures Valid(s')
    ensures s'.bookings == s.bookings[b.id := b] && b.id !in s.bookings
    ensures s'.users == s.users && s'.defaultStatus == s.defaultStatus
  {
    s.(bookings := s.bookings[b.id := b], nextBookingId := s.nextBookingId + 1)
  }

  /**
   * The store's own error text (Prisma's message) is not modelled; this
   * stands for it in a 500 reply.
   */
  const StoreFault := "Internal Server Error"

  /**
   * A handler's answer: the HTTP status, the JSON body (a value or an
   * `error` message) and the store after the request.
   */
  datatype Reply<T> =
    | Done(status: int, value: T, store: Store)
    | Fail(status: int, error: string, store: Store)

  /**
   * The foreign primitives: bcrypt's `hash(password, 10)` (its random salt
   * folded into the function) and `compare(plain, stored)`, the JWT signer
   * `generateToken(id, email)`, and zod's `.email()` test.
   */
  datatype Capabilities = Capabilities(
    hash: string -> string,
    compare: (string, string) -> bool,
    sign: (int, string) -> string,
    isEmail: string -> bool)

  /** The fields of a user a reply may show: never the password. */
  datatype PublicUser = PublicUser(id: int, name: string, email: string, mobile: string)

  function Public(u: User): PublicUser {
    PublicUser(u.id, u.name, u.email, u.mobile)
  }
}

=== FILE: shapes.dfy ===
/**
 * The anchored, fixed-length regular expressions the routers test strings
 * against: `^\d{4}-\d{2}-\d{2}$` (dates), `^\d{2}:\d{2}$` (times) and
 * `^\d{10}$` (mobile numbers). JavaScript's `\d` is the ASCII digits only,
 * and without the `m` flag `$` matches only at the very end of the input,
 * so such a pattern matches exactly the strings of its length whose
 * characters match its atoms one by one.
 */
module Shapes {

  /** One position of a pattern: `\d` or a literal character. */
  datatype Atom = Digit | Lit(c: char)

  predicate IsDigit(c: char) {
    '0' <= c <= '9'
  }

  predicate AtomMatches(a: Atom, c: char) {
    match a
    case Digit => IsDigit(c)
    case Lit(x) => c == x
  }

  /** `/^p$/.test(s)` for a pattern `p` without quantifiers other than `{n}`. */
  predicate FullMatch(p: seq<Atom>, s: string)
    decreases p
  {
    if p == [] then s == []
    else s != [] && AtomMatches(p[0], s[0]) && FullMatch(p[1..], s[1..])
  }

  /** `\d{n}` */
  function Digits(n: nat): (p: seq<Atom>)
    ensures |p| == n
    ensures forall i :: 0 <= i < n ==> p[i] == Digit
  {
    if n == 0 then [] else [Digit] + Digits(n - 1)
  }

  const DatePattern: seq<Atom> := Digits(4) + [Lit('-')] + Digits(2) + [Lit('-')] + Digits(2)
  const TimePattern: seq<Atom> := Digits(2) + [Lit(':')] + Digits(2)
  const MobilePattern: seq<Atom> := Digits(10)

  predicate IsDateShape(s: string) {
    FullMatch(DatePattern, s)
  }

  predicate IsTimeShape(s: string) {
    FullMatch(TimePattern, s)
  }

  predicate IsMobileShape(s: string) {
    FullMatch(MobilePattern, s)
  }

  /** Matching a fixed-length pattern is position-wise matching of equal lengths. */
  lemma {:induction false} FullMatchPointwise(p: seq<Atom>, s: string)
    ensures FullMatch(p, s) <==> |s| == |p| && forall i :: 0 <= i < |p| ==> AtomMatches(p[i], s[i])
    decreases p
  {
    if p != [] && s != [] {
      FullMatchPointwise(p[1..], s[1..]);
      if |s| == |p| && forall i :: 0 <= i < |p| ==> AtomMatches(p[i], s[i]) {
        forall i | 0 <= i < |p| - 1
          ensures AtomMatches(p[1..][i], s[1..][i])
        {
          assert p[1..][i] == p[i + 1] && s[1..][i] == s[i + 1];
        }
      }
      if FullMatch(p, s) {
        forall i | 0 <= i < |p|
          ensures AtomMatches(p[i], s[i])
        {
          if i > 0 {
            assert p[1..][i - 1] == p[i] && s[1..][i - 1] == s[i];
          }
        }
      }
    }
  }

  /** The date shape spelled out: ten characters, dashes at 4 and 7, digits elsewhere. */
  lemma DateShapeIff(s: string)
    ensures IsDateShape(s) <==>
      && |s| == 10 && s[4] == '-' && s[7] == '-'
      && forall i :: 0 <= i < 10 && i != 4 && i != 7 ==> IsDigit(s[i])
  {
    assert DatePattern == [Digit, Digit, Digit, Digit, Lit('-'), Digit, Digit, Lit('-'), Digit, Digit];
    FullMatchPointwise(DatePattern, s);
  }

  /** The time shape spelled out: five characters, a colon at 2, digits elsewhere. */
  lemma TimeShapeIff(s: string)
    ensures IsTimeShape(s) <==>
      && |s| == 5 && s[2] == ':'
      && forall i :: 0 <= i < 5 && i != 2 ==> IsDigit(s[i])
  {
    assert TimePattern == [Digit, Digit, Lit(':'), Digit, Digit];
    FullMatchPointwise(TimePattern, s);
  }

  /** The mobile shape spelled out: exactly ten digits. */
  lemma MobileShapeIff(s: string)
    ensures IsMobileShape(s) <==> |s| == 10 && forall i :: 0 <= i < |s| ==> IsDigit(s[i])
  {
    FullMatchPointwise(MobilePattern, s);
  }

  /**
   * The test is on shape only: a month 13 and a day 40 pass, a date without
   * zero padding does not.
   */
  lemma DateShapeIsNotCalendar()
    ensures IsDateShape("2024-13-40")
    ensures IsDateShape("2024-12-25")
    ensures !IsDateShape("2024-1-5")
    ensures !IsDateShape("2024-12-25 ")
  {
    DateShapeIff("2024-13-40");
    DateShapeIff("2024-12-25");
    DateShapeIff("2024-1-5");
    DateShapeIff("2024-12-25 ");
  }
}

=== FILE: zod.dfy ===
/**
 * The part of zod's behaviour the routers rely on. `schema.parse(body)`
 * visits the keys of an object schema in declaration order and, for each
 * key, checks the type and then every refinement in the order written,
 * collecting one issue per failure; the routers answer with the message of
 * the first issue (`err.errors[0].message`). The default messages below are
 * zod 3's, the major version whose `ZodError` has the `errors` array the
 * routers read; zod 4 words them differently.
 */
module Zod {
  import opened JsonValue

  /** zod's name for the type it received (`getParsedType`). */
  function TypeName(v: Value): string {
    match v
    case Undefined => "undefined"
    case Null => "null"
    case Bool(_) => "boolean"
    case Num(_) => "number"
    case Str(_) => "string"
    case Arr => "array"
    case Obj => "object"
  }

  /** zod's default message for a value of the wrong type. */
  function TypeIssue(expected: string, v: Value): string {
    if v.Undefined? then "Required" else "Expected " + expected + ", received " + TypeName(v)
  }

  /** The default message of `.int()`. */
  const NotAnInteger := "Expected integer, received float"

  predicate IsInteger(n: real) {
    n.Floor as real == n
  }
}
